=== FILE: README.md ===
# Echo v4 integration of the keploy Go SDK, modelled in Dafny

The Echo integration installs middleware that records live HTTP traffic as
test cases (capture mode) or replays recorded test cases and stores the
response for comparison (test mode). This project models its deterministic
core and proves what it does:

- **Mode switch** (`EchoV4`): which middleware is installed for each mode string.
- **Context bridge** (`contextValue`): `Get` reads Echo's own store first and
  falls back to the request's context carrier; `Set` only derives a new carrier.
- **Response recorder** (`captureResp`, `bodyDumpResponseWriter`): every body
  byte goes both to the client and to a capture buffer, in order.
- **Decision logic** (`testMW`, `captureMW`): pass-through, replay-recording
  into `app.Resp[id]`, or capture of one `TestCaseReq`, over an abstract SDK
  application (`App`: `Get` as a map of known test cases, the `Resp` and
  `Deps` maps, the capture sink and the log as sequences).
- **Parameter normaliser** (`pathParamsEcho`, `urlParamsEcho`, `urlPathEcho`),
  including Go's `strings.Replace` with its empty-pattern behaviour.

Modules: `Wrappers` (Option), `GoStrings` (`strings.Index`, `Join`,
`Replace`), `Params`, `EchoContext` (request, carrier, bridge), `Recorder`,
`Middleware`.

Go ranges over maps in an unspecified order. Every map loop takes the order
as a sequence of keys, and the lemmas hold for every permutation of the keys
(`IsOrderOf`). `urlPathEcho` is modelled as written: each iteration rewrites
the original `url` rather than the running result, so only the last-ranged
key's replacement survives (`UrlPathLastKey`). `UrlPathNotComposed` and
`UrlPathOrderMatters` exhibit this on concrete paths: a literal value stays
in the templated path, and two orders give two different templates.

Three behaviours of the code that a reader might not expect:

- A body-read error in `captureMW` makes the middleware return that error
  before the route handler runs. The request is not completed normally.
- `captureMW` with a `KEPLOY_TEST_ID` does not ask `app.Get`. It replays with
  `app.Deps[id]`, which is empty for an unknown id.
- The bridge's `Get` falls back to the carrier when Echo's store yields a nil
  value, not only when the key is absent.

## Model

| member | source | states |
|---|---|---|
| `Middleware.EchoV4` | integrations/echo-v4.go:22-35 | "test" installs the bridge then `testMW` and starts the replay loop; "capture" installs the bridge then `captureMW`; every other mode, "off" included, installs nothing; each in both directions |
| `Middleware.Serve` | integrations/echo-v4.go:26-33 | an empty chain runs the handler directly; the bridge followed by `testMW` or `captureMW` runs that middleware on the bridged context |
| `Middleware.ServeOff` | integrations/echo-v4.go:29-30 | with no middleware the handler runs on the request as given; the client gets exactly its bytes and codes; the app is untouched |
| `Middleware.ServeTestKnown` | integrations/echo-v4.go:25-27 | test mode with a known id: the handler sees the test context through the carrier; only `Resp[id]` is set, to the recorded response; its body is what the client received; nothing is captured |
| `Middleware.ServeTestUnknown` | integrations/echo-v4.go:45-52 | test mode with an empty or unknown id: the handler runs on the bridged request, the client gets its output, the app is unchanged |
| `Middleware.ServeCaptureRecords` | integrations/echo-v4.go:31-33 | capture mode, no id, readable body, handlers keeping the keploy context and route: exactly one test case is appended and nothing else in the app changes; it holds the buffered request body, the response the client received, query parameters merged independently of iteration order, and a uri that is the request path for an empty route map and otherwise the path with one parameter's value replaced by its `:name` |
| `Middleware.TestMW` | integrations/echo-v4.go:37-63 | nil app, empty id or id unknown to `Get`: plain `next`, app unchanged; known id: replay with the test case's dependencies, `Resp` gains only `id`, captures unchanged |
| `Middleware.PassThrough` | integrations/echo-v4.go:66-69 | `next` alone: the app is unchanged, the context and error are the handler's, and the client gains exactly the handler's codes and bytes |
| `Middleware.ReplayRun` | integrations/echo-v4.go:53-60 | the replay branch changes only `Resp[id]`; the stored response is the one recorded under the test context; its body equals the bytes sent to the client; the middleware returns nil |
| `Middleware.ReplayContextVisible` | integrations/echo-v4.go:53-57 | on a bridged context the test-mode keploy context is readable from the carrier under KCTX, and through `Get` unless Echo's store shadows it |
| `Middleware.CaptureMW` | integrations/echo-v4.go:65-144 | nil app: plain `next`; id present: replay with `Deps[id]`, no capture, no log; body error: that error returned, client untouched; else a panic only for a non-keploy KCTX value or short route values, a log entry and no capture for a missing KCTX value, otherwise exactly one capture with the buffered body, the client's bytes and the context's deps |
| `Middleware.RestoredContext` | integrations/echo-v4.go:73-99 | the body becomes a fresh reader over the buffered bytes; the capture-mode keploy context is set, by one more carrier binding when bridged and by one store write otherwise, keeping every earlier binding and store entry; nothing else of the request, route or response changes |
| `Middleware.Finish` | integrations/echo-v4.go:104-135 | a missing KCTX value logs and captures nothing; a non-keploy value or short route values panic; otherwise exactly one test case, built from the final context, is captured; `Resp`, `Deps` and the known tests are untouched |
| `Middleware.NewTestCase` | integrations/echo-v4.go:120-135 | time, app name, request fields, buffered body, response and deps as given; the uri is the path for an empty route map and otherwise one parameter's replacement of the path; the URL parameters are the order-free merge |
| `Middleware.CaptureResp` | integrations/echo-v4.go:146-162 | the recorded body is every byte written by the handler and then by the error handler, in order; the client received the same bytes; status and header are the ones Echo reports afterwards |
| `Recorder.BodyWrite` | integrations/echo-v4.go:216-218 | a write reports all bytes written, appends the same bytes to the client and to the buffer, and leaves the status codes alone |
| `Recorder.StatusWrite` | integrations/echo-v4.go:212-214 | `WriteHeader` forwards the code to the client and touches neither the buffer nor the body |
| `Recorder.ReplayMirrors` | integrations/echo-v4.go:147-150 | through the recorder the client receives exactly what it would receive without it, and the buffer gains every written byte in order |
| `Recorder.RecordedIsSent` | integrations/echo-v4.go:146-161 | from an empty buffer, the buffer ends up equal to the bytes appended to the client's body |
| `Params.PathParams` | integrations/echo-v4.go:188-197 | the keys are exactly the route names; each name maps to the value at its last occurrence, so a later duplicate overwrites an earlier one |
| `Params.PathParamsDistinct` | integrations/echo-v4.go:192-195 | with distinct names every `names[i]` maps to `values[i]` |
| `Params.AppendValues` | integrations/echo-v4.go:173-179 | a non-empty starting value stays as the prefix; the result ends with the last query value; all-empty input gives "" |
| `Params.MergeInOrder` | integrations/echo-v4.go:168-181 | the keys are the accumulated names plus the ranged query names; a name that is not ranged keeps its value |
| `Params.UrlParams` | integrations/echo-v4.go:165-183 | the keys are the route names plus the ranged query names; a route name that is not ranged keeps the value of its last occurrence |
| `Params.AppendValuesIsJoin` | integrations/echo-v4.go:173-179 | the inner loop equals joining the base value and the query values with ", " after dropping leading empty strings, so the separator appears only after a non-empty accumulated string |
| `Params.MergeInOrderIsMergeKeys` | integrations/echo-v4.go:168-181 | ranging over distinct query names in any order yields the order-free merge of those names |
| `Params.UrlParamsIsMerge` | integrations/echo-v4.go:165-183 | for every iteration order: keys are path names plus query names; a name without query values keeps its path value; a name with query values gets its path value (or "") followed by each query value in order |
| `Params.UrlParamsOrderIndependent` | integrations/echo-v4.go:168 | two iteration orders over the query names give the same map |
| `Params.UrlParamsExample` | integrations/echo-v4.go:165-183 | path `{id: "7"}` with query `{filter: ["a","b"]}` gives `{id: "7", filter: "a, b"}` |
| `Params.UrlPathFrom` | integrations/echo-v4.go:200-203 | the result is the starting value or one ranged parameter's replacement applied to the original `url`; the starting value when no ranged key is a parameter |
| `Params.UrlPath` | integrations/echo-v4.go:199-205 | the result is `url` or one ranged parameter's replacement applied to the original `url`; `url` when no ranged key is a parameter |
| `Params.UrlPathLastKey` | integrations/echo-v4.go:199-205 | an empty map returns `url`; otherwise the result is `Replace(url, v, ":"+k)` for the last-ranged key `k` only |
| `Params.UrlPathOutcomes` | integrations/echo-v4.go:199-205 | every result is `url` (empty map) or one key's replacement applied to the original `url` |
| `Params.UrlPathAnyKeyMayWin` | integrations/echo-v4.go:201-202 | each key is the surviving replacement for some iteration order, so the result can depend on the iteration order (see `UrlPathOrderMatters`) |
| `Params.UrlPathExample` | integrations/echo-v4.go:199-205 | `"/users/7"` with `{id: "7"}` gives `"/users/:id"` |
| `Params.UrlPathNotComposed` | integrations/echo-v4.go:202 | with two keys of different values the first-ranged value stays literal: `"/users/3/orders/:oid"` |
| `Params.UrlPathIdLast` | integrations/echo-v4.go:199-205 | `"/users/7/orders/7"` with `id` and `orderId` both `"7"`, ranged `orderId` then `id`, gives `"/users/:id/orders/:id"` |
| `Params.UrlPathOrderIdLast` | integrations/echo-v4.go:199-205 | the same inputs ranged `id` then `orderId` give `"/users/:orderId/orders/:orderId"` |
| `Params.UrlPathOrderMatters` | integrations/echo-v4.go:201-202 | on those inputs the two ranging orders give different templated paths |
| `GoStrings.Replace` | integrations/echo-v4.go:202 | without a match the string is unchanged; otherwise the text before the leftmost match is kept and the replacement follows it; with an empty pattern the replacement stands at both ends and the length grows by one replacement per character plus one |
| `GoStrings.ReplaceJoin` | integrations/echo-v4.go:202 | replacing a non-empty pattern scans left to right for non-overlapping matches: a string that is parts joined by the pattern, with no match starting inside a part, becomes the parts joined by the replacement (`GoStrings.ReplaceSplits` shows every string splits into such parts) |
| `GoStrings.ReplaceSplits` | integrations/echo-v4.go:202 | every string splits at a non-empty pattern into parts with no match starting inside any part, cut where the left-to-right scan finds its matches, so `ReplaceJoin` describes every call with a non-empty pattern |
| `GoStrings.InterleaveIsJoin` | integrations/echo-v4.go:202 | an empty pattern inserts the replacement before every character and once at the end |
| `GoStrings.ReplaceSelf` | integrations/echo-v4.go:202 | replacing a pattern by itself returns the string unchanged |
| `GoStrings.ReplaceWithoutMatch` | integrations/echo-v4.go:202 | a string without the pattern comes back unchanged |
| `EchoContext.Value` | integrations/echo-v4.go:247 | a carrier lookup returns the latest binding of the key, and nil when it has none |
| `EchoContext.ValueExtended` | integrations/echo-v4.go:253 | deriving a carrier with bindings of other keys leaves a key's lookup unchanged |
| `EchoContext.Wrap` | integrations/echo-v4.go:228-232 | the handler gets the same request, store, route and response state, now bridged; every key `Get` yielded a value for still yields it |
| `EchoContext.Get` | integrations/echo-v4.go:241-248 | a non-nil store value is returned; on a bridged context a nil store value falls back to the latest carrier binding of `KctxType(key)`; nil when neither layer binds the key |
| `EchoContext.Set` | integrations/echo-v4.go:251-254 | bridged: only the carrier changes, gaining one binding that yields `v`, and the store is untouched; unbridged: Echo's store yields `v`; `Get(key)` then yields `v` unless a bridged store shadows it |
| `EchoContext.SetThenGet` | integrations/echo-v4.go:241-254 | after `Set(k, v)` the carrier yields `v` under `KctxType(k)`, and `Get(k)` yields `v` unless Echo's store holds a non-nil value for `k` |
| `EchoContext.SetFrame` | integrations/echo-v4.go:251-254 | `Set` changes only the carrier, keeps every earlier binding, and changes no other key's value, through the carrier or through `Get` |
| `EchoContext.GetPrecedence` | integrations/echo-v4.go:241-248 | Echo's non-nil store value shadows the carrier; otherwise the carrier decides; nil when neither layer has the key |

## Left out

- The mode comes from `os.Getenv("KEPLOY_SDK_MODE")`; here it is the argument of `EchoV4`.
- `go app.Test()` is a fire-and-forget task owned by the SDK. The model only records that test mode starts it (`startsReplayLoop`).
- `time.Now().Unix()` is the `now` parameter.
- The `fmt.Printf` debug output of `pathParamsEcho` is a side effect only.
- `app.Get`, `app.Capture`, `app.Deps` and `app.Log` belong to the SDK, which is not part of this model. They are a map of known test cases, an appended capture sequence, a map and an appended log.
- `Flush` and `Hijack` only forward to the wrapped writer through type assertions on `net/http` interfaces. They are not modelled.
- `Header.Get("KEPLOY_TEST_ID")`, with net/http's key canonicalisation, is the request's `testId` field.
- `echo.Response` is not part of this model. It tracks the status, the committed flag and the header. The handler's resulting context carries the final status and header that `captureResp` reads.
- Write errors of the real transport, and the `io.MultiWriter` short-write error, are not modelled. Every write succeeds in full.
- The SDK grows a request's dependencies through the `*keploy.Context` pointer. The model has no pointers: a handler that adds dependencies rebinds `KCTX` in the carrier it returns.
- A typed nil `*keploy.Context` under `KCTX` (a nil-pointer dereference) is not modelled. A panicking type assertion and an out-of-range route value are modelled, as `Panicked`.
- The literal of `keploy.KCTX` is defined in the SDK, which is not part of this model. It is the constant `KCTX` here, and no property depends on its spelling. The model does rely on its type: it assumes `KCTX` is a `keploy.KctxType`. Only then does the lookup `Value(keploy.KCTX)` after the handler find the binding that the bridge's `Set` made under `KctxType(string(KCTX))`, so both are the carrier key `KctxKey(KCTX)`.
- Strings are sequences of characters, each standing for one rune. The UTF-8 decoding `strings.Replace` does for an empty pattern is not modelled.
- The map-loop functions skip a key that is not in the map, so that they are total. Go's range never produces such a key.
- Requests are modelled one at a time, each as one step on `App`. net/http serves requests on separate goroutines, and `app.Resp`, `app.Deps` and the capture sink are plain Go maps and calls shared with the `app.Test()` task; that concurrent access is not modelled, so "only `Resp[id]` changes" holds for a request taken in isolation.
- `Serve` interprets only the chains `EchoV4` builds, where the SDK middleware is innermost.
- `Middleware.ServeCaptureRecords`: proved only for handlers that keep a keploy context under `KCTX` and leave the route parameters alone. `CaptureMW` states the other cases.

=== FILE: echo_context.dfy ===
/**
  The request-scoped state the middleware works on: the request with its
  context carrier (Go's `context.Context` chain), Echo's per-request store,
  and the context bridge (`contextValue`) that `NewMiddlewareContextValue`
  wraps around every request.
 */
module EchoContext {

  /** A byte of a request or response body. */
  newtype byte = x: int | 0 <= x < 256

  type Bytes = seq<byte>

  /** `http.Header`: a header name to its values. */
  type Header = map<string, seq<string>>

  /** One recorded dependency mock of the SDK; its contents are opaque here. */
  datatype Dependency = Dependency(name: string, data: seq<string>)

  /** `keploy.Context`: the per-request record the SDK reads back. */
  datatype KeployContext = KeployContext(mode: string, testId: string, deps: seq<Dependency>)

  /** An `interface{}` value stored in a context: nil, a keploy context, or anything else. */
  datatype Any = Nil | Keploy(kctx: KeployContext) | Other(tag: string)

  /**
    A key of the context carrier. Go compares keys by dynamic type and value:
    `KctxKey(k)` is `keploy.KctxType(k)`; keys of any other type are distinct
    from every `KctxKey`.
   */
  datatype CarrierKey = KctxKey(name: string) | ForeignKey(typeName: string, name: string)

  datatype Binding = Binding(key: CarrierKey, val: Any)

  /**
    A context carrier as the chain of `context.WithValue` derivations applied
    to the request's base context, oldest first.
   */
  type Carrier = seq<Binding>

  /** `c[i]` binds `key` and no later binding does. */
  predicate LatestBinding(c: Carrier, key: CarrierKey, i: int) {
    0 <= i < |c| && c[i].key == key && forall j :: i < j < |c| ==> c[j].key != key
  }

  /** `ctx.Value(key)`: the most recent binding of `key`, nil when there is none. */
  function Value(c: Carrier, key: CarrierKey): (r: Any)
    ensures (forall i :: 0 <= i < |c| ==> c[i].key != key) ==> r == Nil
    ensures forall i :: LatestBinding(c, key, i) ==> r == c[i].val
    decreases |c|
  {
    if |c| == 0 then Nil
    else if c[|c| - 1].key == key then c[|c| - 1].val
    else
      var init := c[..|c| - 1];
      assert forall i :: LatestBinding(c, key, i) ==> LatestBinding(init, key, i);
      Value(init, key)
  }

  /** `context.WithValue(c, key, v)`: a derived carrier; `c` itself is not changed. */
  function WithValue(c: Carrier, key: CarrierKey, v: Any): Carrier {
    c + [Binding(key, v)]
  }

  /** What the request body reader yields: no body, the bytes, or a read error. */
  datatype Body = NoBody | Readable(data: Bytes) | Unreadable(err: string)

  /**
    The parts of `*http.Request` the middleware reads. `testId` is the value
    `Header.Get("KEPLOY_TEST_ID")` returns ("" when the header is absent).
   */
  datatype Request = Request(
    verb: string,
    protoMajor: int,
    protoMinor: int,
    url: string,
    path: string,
    header: Header,
    testId: string,
    query: map<string, seq<string>>,
    body: Body,
    carrier: Carrier)

  /**
    `echo.Context` for one request: the request, Echo's own value store, the
    matched route's parameter names and values, whether it is wrapped in the
    context bridge, and the response status and header Echo reports.
   */
  datatype Ctx = Ctx(
    req: Request,
    store: map<string, Any>,
    paramNames: seq<string>,
    paramValues: seq<string>,
    bridged: bool,
    status: int,
    respHeader: Header)

  /** Echo's own `c.Get(key)`: the stored value, nil when absent. */
  function StoreGet(c: Ctx, key: string): Any {
    if key in c.store then c.store[key] else Nil
  }

  /** `NewMiddlewareContextValue`: hand the next handler the bridged context. */
  function Wrap(c: Ctx): (r: Ctx)
    ensures r.bridged
    ensures r.req == c.req && r.store == c.store
    ensures r.paramNames == c.paramNames && r.paramValues == c.paramValues
    ensures r.status == c.status && r.respHeader == c.respHeader
    ensures forall key :: Get(c, key) != Nil ==> Get(r, key) == Get(c, key)
  {
    c.(bridged := true)
  }

  /**
    `c.Get(key)`. Bridged: Echo's store first, falling back to the carrier
    under `KctxType(key)` when the store yields nil. Unbridged: Echo's store.
   */
  function Get(c: Ctx, key: string): (r: Any)
    ensures StoreGet(c, key) != Nil ==> r == StoreGet(c, key)
    ensures StoreGet(c, key) == Nil && !c.bridged ==> r == Nil
    ensures StoreGet(c, key) == Nil && c.bridged
            ==> forall i :: LatestBinding(c.req.carrier, KctxKey(key), i) ==> r == c.req.carrier[i].val
    ensures StoreGet(c, key) == Nil && (forall i :: 0 <= i < |c.req.carrier| ==> c.req.carrier[i].key != KctxKey(key))
            ==> r == Nil
  {
    if !c.bridged then StoreGet(c, key)
    else if StoreGet(c, key) != Nil then StoreGet(c, key)
    else Value(c.req.carrier, KctxKey(key))
  }

  /**
    `c.Set(key, v)`. Bridged: replace the request by one whose carrier is
    derived with `KctxType(key) -> v`. Unbridged: Echo's store.
   */
  function Set(c: Ctx, key: string, v: Any): (r: Ctx)
    ensures r.bridged == c.bridged && r.paramNames == c.paramNames && r.paramValues == c.paramValues
    ensures r.status == c.status && r.respHeader == c.respHeader
    ensures Get(r, key) == if c.bridged && StoreGet(c, key) != Nil then StoreGet(c, key) else v
    ensures !c.bridged ==> r.req == c.req && StoreGet(r, key) == v
    ensures c.bridged ==> && r.store == c.store
                          && r.req == c.req.(carrier := r.req.carrier)
                          && |r.req.carrier| == |c.req.carrier| + 1
                          && r.req.carrier[..|c.req.carrier|] == c.req.carrier
                          && Value(r.req.carrier, KctxKey(key)) == v
  {
    if c.bridged then c.(req := c.req.(carrier := WithValue(c.req.carrier, KctxKey(key), v)))
    else c.(store := c.store[key := v])
  }

  /** Extending a carrier with bindings of other keys does not change what a key reads. */
  lemma ValueExtended(c: Carrier, ext: Carrier, key: CarrierKey)
    requires forall i :: 0 <= i < |ext| ==> ext[i].key != key
    ensures Value(c + ext, key) == Value(c, key)
  {
    var d := c + ext;
    if i :| LatestBinding(c, key, i) {
      assert LatestBinding(d, key, i) by {
        forall j | i < j < |d| ensures d[j].key != key {
          if j >= |c| {
            assert d[j] == ext[j - |c|];
          }
        }
      }
    } else {
      forall i | 0 <= i < |c| ensures c[i].key != key {
        if c[i].key == key {
          LatestExists(c, key, i);
        }
      }
      forall i | 0 <= i < |d| ensures d[i].key != key {
        if i >= |c| {
          assert d[i] == ext[i - |c|];
        }
      }
    }
  }

  /** If `c[i]` binds `key`, some binding of `key` is the latest. */
  lemma {:induction false} LatestExists(c: Carrier, key: CarrierKey, i: int)
    requires 0 <= i < |c| && c[i].key == key
    ensures exists j :: LatestBinding(c, key, j)
    decreases |c| - i
  {
    if !LatestBinding(c, key, i) {
      var j :| i < j < |c| && c[j].key == key;
      LatestExists(c, key, j);
    }
  }

  /**
    After `Set(key, v)` on a bridged context, `Get(key)` yields `v` unless
    Echo's store shadows `key` with a non-nil value; and the value is visible
    by inspecting the carrier directly.
   */
  lemma SetThenGet(c: Ctx, key: string, v: Any)
    requires c.bridged
    ensures Value(Set(c, key, v).req.carrier, KctxKey(key)) == v
    ensures Get(Set(c, key, v), key) == if StoreGet(c, key) != Nil then StoreGet(c, key) else v
  {
  }

  /**
    `Set` on a bridged context touches nothing but the carrier, keeps every
    earlier binding, and changes what no other key reads, through `Get` or
    through the carrier.
   */
  lemma SetFrame(c: Ctx, key: string, v: Any)
    requires c.bridged
    ensures var c' := Set(c, key, v);
            && c'.store == c.store
            && c' == c.(req := c.req.(carrier := c'.req.carrier))
            && c'.req.carrier[..|c.req.carrier|] == c.req.carrier
            && (forall k :: k != KctxKey(key) ==> Value(c'.req.carrier, k) == Value(c.req.carrier, k))
            && (forall k :: k != key ==> Get(c', k) == Get(c, k))
  {
    var c' := Set(c, key, v);
    forall k | k != KctxKey(key) ensures Value(c'.req.carrier, k) == Value(c.req.carrier, k) {
      ValueExtended(c.req.carrier, [Binding(KctxKey(key), v)], k);
    }
    forall k | k != key ensures Get(c', k) == Get(c, k) {
      ValueExtended(c.req.carrier, [Binding(KctxKey(key), v)], KctxKey(k));
    }
  }

  /** `Get` on a bridged context: Echo's store shadows the carrier; neither layer yields nil. */
  lemma GetPrecedence(c: Ctx, key: string)
    requires c.bridged
    ensures StoreGet(c, key) != Nil ==> Get(c, key) == StoreGet(c, key)
    ensures StoreGet(c, key) == Nil ==> Get(c, key) == Value(c.req.carrier, KctxKey(key))
    ensures (forall i :: 0 <= i < |c.req.carrier| ==> c.req.carrier[i].key != KctxKey(key)) && StoreGet(c, key) == Nil
            ==> Get(c, key) == Nil
  {
  }
}

=== FILE: go_strings.dfy ===
/**
  The parts of Go's `strings` package that the route templating relies on:
  `Index`, `Join` and `Replace(s, old, new, -1)`. A Go string is modelled as a
  sequence of characters, each character standing for one rune.
 */
module GoStrings {
  import opened Wrappers

  /** `pat` occurs in `s` starting at index `i`. */
  predicate MatchAt(s: string, pat: string, i: int) {
    0 <= i && i + |pat| <= |s| && s[i..i + |pat|] == pat
  }

  /** `pat` occurs somewhere in `s` (`strings.Contains`). */
  predicate Contains(s: string, pat: string) {
    exists i | 0 <= i <= |s| :: MatchAt(s, pat, i)
  }

  /** The first occurrence of `pat` in `s` at or after `from`. */
  function IndexFrom(s: string, pat: string, from: nat): (r: Option<nat>)
    ensures r.Some? ==> from <= r.value && MatchAt(s, pat, r.value)
    ensures r.Some? ==> forall j :: from <= j < r.value ==> !MatchAt(s, pat, j)
    ensures r.None? ==> forall j :: from <= j ==> !MatchAt(s, pat, j)
    decreases |s| - from
  {
    if from + |pat| > |s| then None
    else if s[from..from + |pat|] == pat then Some(from)
    else IndexFrom(s, pat, from + 1)
  }

  /** `strings.Index`: the leftmost occurrence of `pat` in `s`, if any. */
  function IndexOf(s: string, pat: string): (r: Option<nat>)
    ensures r.Some? ==> MatchAt(s, pat, r.value)
    ensures r.Some? ==> forall j :: 0 <= j < r.value ==> !MatchAt(s, pat, j)
    ensures r.None? <==> !Contains(s, pat)
  {
    IndexFrom(s, pat, 0)
  }

  /** `strings.Join`: the parts with `sep` between consecutive ones. */
  function Join(parts: seq<string>, sep: string): string
    decreases |parts|
  {
    if |parts| == 0 then ""
    else if |parts| == 1 then parts[0]
    else parts[0] + sep + Join(parts[1..], sep)
  }

  /** Every character of `s` as a one-character string. */
  function Chars(s: string): (r: seq<string>)
    ensures |r| == |s|
    ensures forall i :: 0 <= i < |s| ==> r[i] == [s[i]]
  {
    seq(|s|, i requires 0 <= i < |s| => [s[i]])
  }

  /**
    `strings.Replace(s, "", rep, -1)`: Go inserts `rep` before every rune and
    once more at the end.
   */
  function Interleave(s: string, rep: string): string
    decreases |s|
  {
    if |s| == 0 then rep else rep + [s[0]] + Interleave(s[1..], rep)
  }

  /** `rep` once per character and once more, at both ends. */
  lemma {:induction false} InterleaveShape(s: string, rep: string)
    ensures var r := Interleave(s, rep);
            && |r| == |s| + (|s| + 1) * |rep|
            && r[..|rep|] == rep && r[|r| - |rep|..] == rep
    decreases |s|
  {
    if |s| > 0 {
      InterleaveShape(s[1..], rep);
      var t := Interleave(s[1..], rep);
      var r := rep + [s[0]] + t;
      assert |r| == |rep| + 1 + |t|;
      assert (|s| - 1 + 1) * |rep| == |s| * |rep|;
      assert r[|r| - |rep|..] == t[|t| - |rep|..];
    }
  }

  /** All non-overlapping occurrences of a non-empty `pat`, scanned left to right. */
  function ReplaceNonEmpty(s: string, pat: string, rep: string): (r: string)
    requires pat != []
    ensures !Contains(s, pat) ==> r == s
    ensures forall i :: IndexOf(s, pat) == Some(i) ==> i + |rep| <= |r| && r[..i] == s[..i] && r[i..i + |rep|] == rep
    decreases |s|
  {
    match IndexOf(s, pat)
    case None => s
    case Some(i) => s[..i] + rep + ReplaceNonEmpty(s[i + |pat|..], pat, rep)
  }

  /** `strings.Replace(s, pat, rep, -1)`: replace every occurrence. */
  function Replace(s: string, pat: string, rep: string): (r: string)
    ensures pat != [] && !Contains(s, pat) ==> r == s
    ensures pat != [] && Contains(s, pat)
            ==> exists i :: && MatchAt(s, pat, i)
                            && (forall j :: 0 <= j < i ==> !MatchAt(s, pat, j))
                            && i + |rep| <= |r| && r[..i] == s[..i] && r[i..i + |rep|] == rep
    ensures pat == [] ==> |r| == |s| + (|s| + 1) * |rep| && r[..|rep|] == rep && r[|r| - |rep|..] == rep
  {
    if pat == [] then
      InterleaveShape(s, rep);
      Interleave(s, rep)
    else
      ReplaceNonEmpty(s, pat, rep)
  }

  /** A string with no occurrence of `pat` comes back unchanged. */
  lemma ReplaceWithoutMatch(s: string, pat: string, rep: string)
    requires pat != []
    requires !Contains(s, pat)
    ensures Replace(s, pat, rep) == s
  {
  }

  /**
    Replacing a pattern by itself changes nothing; this is why Go may
    short-cut `old == new` without changing the result.
   */
  lemma {:induction false} ReplaceSelf(s: string, pat: string)
    ensures Replace(s, pat, pat) == s
    decreases |s|
  {
    if pat == [] {
      InterleaveEmpty(s);
    } else {
      match IndexOf(s, pat)
      case None =>
      case Some(i) =>
        ReplaceSelf(s[i + |pat|..], pat);
        assert s[..i] + pat + s[i + |pat|..] == s by {
          assert s[i..i + |pat|] == pat;
          assert s == s[..i] + s[i..i + |pat|] + s[i + |pat|..];
        }
    }
  }

  lemma {:induction false} InterleaveEmpty(s: string)
    ensures Interleave(s, "") == s
    decreases |s|
  {
    if |s| > 0 {
      InterleaveEmpty(s[1..]);
      assert s == [s[0]] + s[1..];
    }
  }

  /** Joining behind an empty leading part puts one separator in front. */
  lemma JoinEmptyHead(rest: seq<string>, sep: string)
    requires |rest| > 0
    ensures Join([""] + rest, sep) == sep + Join(rest, sep)
  {
    assert ([""] + rest)[1..] == rest;
  }

  /**
    With an empty pattern Go's result is the characters of `s` joined by
    `rep`, with `rep` added at both ends.
   */
  lemma {:induction false} InterleaveIsJoin(s: string, rep: string)
    ensures Interleave(s, rep) == Join([""] + Chars(s) + [""], rep)
    decreases |s|
  {
    if |s| == 0 {
      assert [""] + Chars(s) + [""] == ["", ""];
      assert Join(["", ""], rep) == "" + rep + Join([""], rep);
    } else {
      var t := s[1..];
      InterleaveIsJoin(t, rep);
      assert Chars(s) == [[s[0]]] + Chars(t);
      var tail := Chars(t) + [""];
      assert [""] + Chars(s) + [""] == [""] + ([[s[0]]] + tail);
      JoinEmptyHead([[s[0]]] + tail, rep);
      assert ([[s[0]]] + tail)[1..] == tail;
      assert Join([[s[0]]] + tail, rep) == [s[0]] + rep + Join(tail, rep);
      assert [""] + Chars(t) + [""] == [""] + tail;
      JoinEmptyHead(tail, rep);
    }
  }

  /**
    Reference characterisation of the scan: when `s` is `parts` joined by a
    non-empty `pat`, and no occurrence of `pat` starts inside a part (not even
    one running into the following separator; the last part is followed by
    none), replacing `pat` by `rep` is the same as joining the parts by `rep`.
    Go's left-to-right scan splits every string into such parts.
   */
  lemma {:induction false} ReplaceJoin(parts: seq<string>, pat: string, rep: string)
    requires pat != []
    requires forall k :: 0 <= k < |parts| - 1 ==> !Contains(parts[k] + pat[..|pat| - 1], pat)
    requires |parts| > 0 ==> !Contains(parts[|parts| - 1], pat)
    ensures Replace(Join(parts, pat), pat, rep) == Join(parts, rep)
    decreases |parts|
  {
    if |parts| == 0 {
      assert !Contains("", pat);
    } else if |parts| == 1 {
      assert !Contains(parts[0], pat);
    } else {
      var p := parts[0];
      var rest := Join(parts[1..], pat);
      var s := p + pat + rest;
      assert Join(parts, pat) == s;
      assert MatchAt(s, pat, |p|) by {
        assert s[|p|..|p| + |pat|] == pat;
      }
      var q := p + pat[..|pat| - 1];
      assert !Contains(q, pat);
      forall j | 0 <= j < |p| ensures !MatchAt(s, pat, j) {
        if j + |pat| <= |s| {
          assert s[j..j + |pat|] == q[j..j + |pat|] by {
            forall u | j <= u < j + |pat| ensures s[u] == q[u] {
              if u >= |p| {
                assert s[u] == pat[u - |p|];
              }
            }
          }
          assert MatchAt(s, pat, j) ==> MatchAt(q, pat, j);
        }
      }
      var i := IndexOf(s, pat);
      assert i == Some(|p|);
      assert s[..|p|] == p;
      assert s[|p| + |pat|..] == rest;
      ReplaceJoin(parts[1..], pat, rep);
    }
  }

  /**
    `parts` is a split of a string at a non-empty `pat` that meets the
    requirements of `ReplaceJoin`: no occurrence of `pat` starts inside a part.
   */
  predicate GoodSplit(parts: seq<string>, pat: string) {
    && pat != []
    && |parts| > 0
    && (forall k :: 0 <= k < |parts| - 1 ==> !Contains(parts[k] + pat[..|pat| - 1], pat))
    && !Contains(parts[|parts| - 1], pat)
  }

  /** The text before the leftmost match, run into the match, holds no match of its own. */
  lemma NoMatchBeforeFirst(s: string, pat: string, i: nat)
    requires pat != [] && MatchAt(s, pat, i)
    requires forall j :: 0 <= j < i ==> !MatchAt(s, pat, j)
    ensures !Contains(s[..i] + pat[..|pat| - 1], pat)
  {
    var q := s[..i] + pat[..|pat| - 1];
    assert q == s[..i + |pat| - 1] by {
      assert s[i..i + |pat|] == pat;
    }
    forall j | 0 <= j <= |q| ensures !MatchAt(q, pat, j) {
      if MatchAt(q, pat, j) {
        assert s[j..j + |pat|] == q[j..j + |pat|];
        assert MatchAt(s, pat, j);
      }
    }
  }

  /** Putting a part that holds no match in front keeps the split good. */
  lemma GoodSplitCons(p: string, parts: seq<string>, pat: string)
    requires GoodSplit(parts, pat)
    requires !Contains(p + pat[..|pat| - 1], pat)
    ensures GoodSplit([p] + parts, pat)
    ensures Join([p] + parts, pat) == p + pat + Join(parts, pat)
  {
    var all := [p] + parts;
    assert all[1..] == parts;
    forall k | 0 <= k < |all| - 1 ensures !Contains(all[k] + pat[..|pat| - 1], pat) {
      if k > 0 {
        assert all[k] == parts[k - 1];
      }
    }
  }

  /**
    Every string can be split at a non-empty `pat` the way `ReplaceJoin`
    needs: cutting at each match that Go's left-to-right scan finds gives
    such a split. With `ReplaceJoin`, replacing is joining the parts by `rep`.
   */
  lemma {:induction false} ReplaceSplits(s: string, pat: string)
    requires pat != []
    ensures exists parts :: GoodSplit(parts, pat) && Join(parts, pat) == s
    decreases |s|
  {
    match IndexOf(s, pat)
    case None =>
      assert GoodSplit([s], pat) && Join([s], pat) == s;
    case Some(i) =>
      var t := s[i + |pat|..];
      ReplaceSplits(t, pat);
      var rest :| GoodSplit(rest, pat) && Join(rest, pat) == t;
      NoMatchBeforeFirst(s, pat, i);
      GoodSplitCons(s[..i], rest, pat);
      assert s == s[..i] + s[i..i + |pat|] + t;
      assert GoodSplit([s[..i]] + rest, pat) && Join([s[..i]] + rest, pat) == s;
  }
}

=== FILE: middleware.dfy ===
/**
  The middleware decision logic of the Echo integration: `captureResp`,
  `testMW`, `captureMW` and the `EchoV4` mode switch, over an abstract SDK
  application. A handler is a function from the context it is given to what
  it does: the context afterwards, the calls it makes on the response writer,
  and the error it returns.
 */
module Middleware {
  import opened Wrappers
  import opened EchoContext
  import opened Recorder
  import opened GoStrings
  import opened Params

  /**
    The store key the middleware sets, `string(keploy.KCTX)`. Its literal is
    defined by the SDK; no property here depends on its spelling.
   */
  const KCTX: string := "KeployContext"

  /** The message logged when the keploy context is missing after the handler ran. */
  const ContextMissing: string := "failed to get keploy context"

  /** A previously recorded test case, as `app.Get` returns it. */
  datatype TestCase = TestCase(deps: seq<Dependency>)

  /** `keploy.HttpResp`: the recorded response. */
  datatype HttpResp = HttpResp(statusCode: int, header: Header, body: Bytes)

  /** `keploy.HttpReq`: the captured request. */
  datatype HttpReq = HttpReq(
    verb: string,
    protoMajor: int,
    protoMinor: int,
    url: string,
    urlParams: ParamMap,
    header: Header,
    body: Bytes)

  /** `keploy.TestCaseReq`: one captured test case. */
  datatype TestCaseReq = TestCaseReq(
    captured: int,
    appId: string,
    uri: string,
    httpReq: HttpReq,
    httpResp: HttpResp,
    deps: seq<Dependency>)

  /**
    The SDK application as the middleware sees it: its name, the test cases
    `app.Get` can return, the `Resp` and `Deps` maps, the test cases handed to
    `app.Capture` so far and the messages given to `app.Log`.
   */
  datatype App = App(
    name: string,
    tests: map<string, TestCase>,
    resp: map<string, HttpResp>,
    deps: map<string, seq<Dependency>>,
    captures: seq<TestCaseReq>,
    log: seq<string>)

  /** What a handler did: the context afterwards, its writer calls, the error it returned. */
  datatype Outcome = Outcome(ctx: Ctx, events: seq<Event>, err: Option<string>)

  /** `echo.HandlerFunc`. */
  type Handler = Ctx -> Outcome

  /** `c.Error(err)`: Echo's error handler; the error it would return is ignored. */
  type ErrorHandler = (Ctx, string) -> Outcome

  /** How the middleware finished: returning an error (or nil), or panicking. */
  datatype Ret = Returned(err: Option<string>) | Panicked

  /** The state after one request went through a middleware. */
  datatype Step = Step(app: Option<App>, ctx: Ctx, client: Client, ret: Ret)

  /** The result of `captureResp`: the recorded response, the context and what the client received. */
  datatype Recorded = Recorded(resp: HttpResp, ctx: Ctx, client: Client)

  /** The orders in which Go happens to range over the path-parameter and query maps. */
  datatype Orders = Orders(pathKeys: seq<string>, queryKeys: seq<string>)

  /** The writer calls of a handler run, followed by those of the error handler when it failed. */
  function HandlerEvents(ctx: Ctx, next: Handler, onError: ErrorHandler): seq<Event> {
    var o := next(ctx);
    if o.err.Some? then o.events + onError(o.ctx, o.err.value).events else o.events
  }

  /** The context after a handler run and, when it failed, after the error handler. */
  function HandlerCtx(ctx: Ctx, next: Handler, onError: ErrorHandler): Ctx {
    var o := next(ctx);
    if o.err.Some? then onError(o.ctx, o.err.value).ctx else o.ctx
  }

  /**
    `captureResp`: run the handler behind the recorder, hand a handler error
    to `c.Error`, and return the status and header Echo reports with the
    captured body. The body is every byte written, by the handler and by the
    error handler, in order, and it is exactly what the client received.
   */
  function CaptureResp(ctx: Ctx, client: Client, next: Handler, onError: ErrorHandler): (r: Recorded)
    ensures r.resp.body == Payload(HandlerEvents(ctx, next, onError))
    ensures r.client.body == client.body + r.resp.body
    ensures r.client.codes == client.codes + Codes(HandlerEvents(ctx, next, onError))
    ensures r.ctx == HandlerCtx(ctx, next, onError)
    ensures r.resp.statusCode == r.ctx.status && r.resp.header == r.ctx.respHeader
  {
    var o := next(ctx);
    var w1 := Replay(BodyDump(client, []), o.events);
    if o.err.None? then
      RecordedIsSent(client, o.events);
      Recorded(HttpResp(o.ctx.status, o.ctx.respHeader, w1.buffer), o.ctx, w1.client)
    else
      var e := onError(o.ctx, o.err.value);
      var w2 := Replay(w1, e.events);
      RecordedInTwoRuns(client, o.events, e.events);
      Recorded(HttpResp(e.ctx.status, e.ctx.respHeader, w2.buffer), e.ctx, w2.client)
  }

  /** Recording two runs of writer calls one after the other records their concatenation. */
  lemma RecordedInTwoRuns(client: Client, a: seq<Event>, b: seq<Event>)
    ensures var w := Replay(Replay(BodyDump(client, []), a), b);
            && w.buffer == Payload(a + b)
            && w.client.body == client.body + w.buffer
            && w.client.codes == client.codes + Codes(a + b)
  {
    var w1 := Replay(BodyDump(client, []), a);
    RecordedIsSent(client, a);
    ReplayMirrors(w1, b);
    SendAppends(w1.client, b);
    PayloadAppend(a, b);
    Assoc(client.body, Payload(a), Payload(b));
    Assoc(client.codes, Codes(a), Codes(b));
  }

  /** `return next(c)`: the handler runs on the context as given, straight to the client. */
  function PassThrough(app: Option<App>, next: Handler, ctx: Ctx, client: Client): (r: Step)
    ensures r.app == app && r.ctx == next(ctx).ctx && r.ret == Returned(next(ctx).err)
    ensures r.client == Client(client.codes + Codes(next(ctx).events), client.body + Payload(next(ctx).events))
  {
    var o := next(ctx);
    SendAppends(client, o.events);
    Step(app, o.ctx, Send(client, o.events), Returned(o.err))
  }

  /** The keploy context of a replayed test case. */
  function TestValue(id: string, deps: seq<Dependency>): Any {
    Keploy(KeployContext("test", id, deps))
  }

  /** The context the handler gets when test case `id` is replayed with `deps`. */
  function ReplayContext(ctx: Ctx, id: string, deps: seq<Dependency>): Ctx {
    Set(ctx, KCTX, TestValue(id, deps))
  }

  /** On a bridged context the replay context is visible through the carrier under `KCTX`. */
  lemma ReplayContextVisible(ctx: Ctx, id: string, deps: seq<Dependency>)
    requires ctx.bridged
    ensures Value(ReplayContext(ctx, id, deps).req.carrier, KctxKey(KCTX)) == TestValue(id, deps)
    ensures StoreGet(ctx, KCTX) == Nil ==> Get(ReplayContext(ctx, id, deps), KCTX) == TestValue(id, deps)
  {
    SetThenGet(ctx, KCTX, TestValue(id, deps));
  }

  /**
    The replay branch shared by `testMW` and `captureMW`: set the test-mode
    context, record the response and store it under `app.Resp[id]`. Nothing
    else of the application changes and the middleware returns nil.
   */
  function ReplayRun(a: App, id: string, deps: seq<Dependency>, next: Handler, onError: ErrorHandler, ctx: Ctx, client: Client): (r: Step)
    ensures r.app.Some? && id in r.app.value.resp
    ensures r.app.value == a.(resp := a.resp[id := r.app.value.resp[id]])
    ensures r.client.body == client.body + r.app.value.resp[id].body
    ensures var rec := CaptureResp(ReplayContext(ctx, id, deps), client, next, onError);
            r.app.value.resp[id] == rec.resp && r.client == rec.client && r.ctx == rec.ctx
    ensures r.ret == Returned(None)
  {
    var rec := CaptureResp(ReplayContext(ctx, id, deps), client, next, onError);
    Step(Some(a.(resp := a.resp[id := rec.resp])), rec.ctx, rec.client, Returned(None))
  }

  /**
    `testMW(app)(next)`. A nil application, an empty `KEPLOY_TEST_ID` or an
    id `app.Get` does not know leaves the request to `next` untouched; a
    known id replays it with the test case's dependencies.
   */
  function TestMW(app: Option<App>, next: Handler, onError: ErrorHandler, ctx: Ctx, client: Client): (r: Step)
    ensures app.None? || ctx.req.testId == "" || ctx.req.testId !in app.value.tests
            ==> r == PassThrough(app, next, ctx, client) && r.app == app
    ensures app.Some? && ctx.req.testId != "" && ctx.req.testId in app.value.tests
            ==> var id := ctx.req.testId;
                && r == ReplayRun(app.value, id, app.value.tests[id].deps, next, onError, ctx, client)
                && r.app.value.captures == app.value.captures
                && r.app.value.resp.Keys == app.value.resp.Keys + {id}
  {
    if app.None? then PassThrough(app, next, ctx, client)
    else
      var id := ctx.req.testId;
      if id == "" then PassThrough(app, next, ctx, client)
      else if id !in app.value.tests then PassThrough(app, next, ctx, client)
      else ReplayRun(app.value, id, app.value.tests[id].deps, next, onError, ctx, client)
  }

  /** The keploy context `captureMW` sets before looking at the request. */
  const CaptureValue: Any := Keploy(KeployContext("capture", "", []))

  /** `app.Deps[id]`; Go yields a nil slice for a missing id. */
  function DepsOf(a: App, id: string): seq<Dependency> {
    if id in a.deps then a.deps[id] else []
  }

  /** The buffered request body: `ioutil.ReadAll`'s bytes, or none when there is no body. */
  function BufferedBody(b: Body): Bytes
    requires !b.Unreadable?
  {
    if b.Readable? then b.data else []
  }

  /** The test case `captureMW` hands to `app.Capture`, read from the context after the handler. */
  function NewTestCase(a: App, c: Ctx, reqBody: Bytes, resp: HttpResp, deps: seq<Dependency>, now: int, orders: Orders): (tc: TestCaseReq)
    requires |c.paramNames| <= |c.paramValues|
    ensures tc.captured == now && tc.appId == a.name && tc.httpResp == resp && tc.deps == deps
    ensures tc.httpReq == HttpReq(c.req.verb, c.req.protoMajor, c.req.protoMinor, c.req.url,
                                  tc.httpReq.urlParams, c.req.header, reqBody)
    ensures PathParams(c.paramNames, c.paramValues) == map[] ==> tc.uri == c.req.path
    ensures var params := PathParams(c.paramNames, c.paramValues);
            IsOrderOf(orders.pathKeys, params.Keys) && params != map[]
            ==> exists k :: k in params && tc.uri == Replace(c.req.path, params[k], ":" + k)
    ensures IsOrderOf(orders.queryKeys, c.req.query.Keys)
            ==> tc.httpReq.urlParams == MergeQuery(PathParams(c.paramNames, c.paramValues), c.req.query)
  {
    var params := PathParams(c.paramNames, c.paramValues);
    assert IsOrderOf(orders.pathKeys, params.Keys) && params != map[]
           ==> exists k :: k in params && UrlPath(c.req.path, params, orders.pathKeys) == Replace(c.req.path, params[k], ":" + k) by {
      if IsOrderOf(orders.pathKeys, params.Keys) {
        UrlPathOutcomes(c.req.path, params, orders.pathKeys);
      }
    }
    assert IsOrderOf(orders.queryKeys, c.req.query.Keys)
           ==> UrlParams(c.paramNames, c.paramValues, c.req.query, orders.queryKeys) == MergeQuery(params, c.req.query) by {
      if IsOrderOf(orders.queryKeys, c.req.query.Keys) {
        UrlParamsIsMerge(c.paramNames, c.paramValues, c.req.query, orders.queryKeys);
      }
    }
    TestCaseReq(
      now,
      a.name,
      UrlPath(c.req.path, params, orders.pathKeys),
      HttpReq(c.req.verb, c.req.protoMajor, c.req.protoMinor, c.req.url,
              UrlParams(c.paramNames, c.paramValues, c.req.query, orders.queryKeys),
              c.req.header, reqBody),
      resp,
      deps)
  }

  /** After the handler: the keploy context read back from the carrier decides whether a capture is emitted. */
  function Finish(a: App, rec: Recorded, reqBody: Bytes, now: int, orders: Orders): (r: Step)
    ensures r.ctx == rec.ctx && r.client == rec.client && r.app.Some?
    ensures r.app.value == a.(captures := r.app.value.captures, log := r.app.value.log)
    ensures r.ret.Panicked? <==> !CaptureEmitted(rec.ctx) && !Value(rec.ctx.req.carrier, KctxKey(KCTX)).Nil?
    ensures Value(rec.ctx.req.carrier, KctxKey(KCTX)).Nil?
            ==> r.ret == Returned(None) && r.app.value.captures == a.captures && r.app.value.log == a.log + [ContextMissing]
    ensures !Value(rec.ctx.req.carrier, KctxKey(KCTX)).Nil? ==> r.app.value.log == a.log
    ensures !CaptureEmitted(rec.ctx) ==> r.app.value.captures == a.captures
    ensures CaptureEmitted(rec.ctx)
            ==> && r.ret == Returned(None)
                && r.app.value.captures
                   == a.captures + [NewTestCase(a, rec.ctx, reqBody, rec.resp, Value(rec.ctx.req.carrier, KctxKey(KCTX)).kctx.deps, now, orders)]
  {
    match Value(rec.ctx.req.carrier, KctxKey(KCTX))
    case Nil =>
      Step(Some(a.(log := a.log + [ContextMissing])), rec.ctx, rec.client, Returned(None))
    case Other(_) =>
      // the type assertion `d.(*keploy.Context)` fails
      Step(Some(a), rec.ctx, rec.client, Panicked)
    case Keploy(k) =>
      if |rec.ctx.paramValues| < |rec.ctx.paramNames| then
        // `pathParamsEcho` indexes past the end of the parameter values
        Step(Some(a), rec.ctx, rec.client, Panicked)
      else
        var tc := NewTestCase(a, rec.ctx, reqBody, rec.resp, k.deps, now, orders);
        Step(Some(a.(captures := a.captures + [tc])), rec.ctx, rec.client, Returned(None))
  }

  /** The context after `captureMW` set the capture-mode keploy context. */
  function CaptureContext(ctx: Ctx): Ctx {
    Set(ctx, KCTX, CaptureValue)
  }

  /** The context the handler gets in the capture branch: the body put back as a fresh reader. */
  function RestoredContext(ctx: Ctx): (r: Ctx)
    requires !ctx.req.body.Unreadable?
    ensures r.req.body == Readable(BufferedBody(ctx.req.body))
    ensures r.req == ctx.req.(body := r.req.body, carrier := r.req.carrier)
    ensures r.bridged == ctx.bridged && r.paramNames == ctx.paramNames && r.paramValues == ctx.paramValues
    ensures ctx.bridged ==> Value(r.req.carrier, KctxKey(KCTX)) == CaptureValue && r.store == ctx.store
    ensures !ctx.bridged ==> StoreGet(r, KCTX) == CaptureValue && r.req.carrier == ctx.req.carrier
    ensures ctx.bridged ==> r.req.carrier == WithValue(ctx.req.carrier, KctxKey(KCTX), CaptureValue)
    ensures !ctx.bridged ==> r.store == ctx.store[KCTX := CaptureValue]
    ensures r.status == ctx.status && r.respHeader == ctx.respHeader
  {
    var c1 := CaptureContext(ctx);
    c1.(req := c1.req.(body := Readable(BufferedBody(ctx.req.body))))
  }

  /** A capture is emitted exactly when the keploy context survives the handler and the route is well formed. */
  predicate CaptureEmitted(c: Ctx) {
    Value(c.req.carrier, KctxKey(KCTX)).Keploy? && |c.paramNames| <= |c.paramValues|
  }

  /**
    `captureMW(app)(next)`. A nil application leaves the request to `next`.
    With a `KEPLOY_TEST_ID` the request is replayed with `app.Deps[id]`
    (without asking `app.Get`) and only `app.Resp[id]` changes. Otherwise a
    body-read error is returned before `next` runs; a missing keploy context
    after the handler is logged; and in the remaining case exactly one test
    case is captured, holding the buffered request body and the recorded
    response.
   */
  function CaptureMW(app: Option<App>, next: Handler, onError: ErrorHandler, ctx: Ctx, client: Client, now: int, orders: Orders): (r: Step)
    ensures app.None? ==> r == PassThrough(app, next, ctx, client)
    ensures app.Some? && ctx.req.testId != ""
            ==> var id := ctx.req.testId;
                && r == ReplayRun(app.value, id, DepsOf(app.value, id), next, onError, CaptureContext(ctx), client)
                && r.app.value.captures == app.value.captures
                && r.app.value.log == app.value.log
    ensures app.Some? && ctx.req.testId == "" && ctx.req.body.Unreadable?
            ==> r == Step(app, CaptureContext(ctx), client, Returned(Some(ctx.req.body.err)))
    ensures app.Some? && ctx.req.testId == "" && !ctx.req.body.Unreadable?
            ==> var a := app.value;
                var rec := CaptureResp(RestoredContext(ctx), client, next, onError);
                && r.app.Some?
                && r.ctx == rec.ctx && r.client == rec.client
                && r.client.body == client.body + rec.resp.body
                && r.app.value.resp == a.resp && r.app.value.tests == a.tests && r.app.value.deps == a.deps
                && (r.ret.Panicked? <==> !CaptureEmitted(rec.ctx) && !Value(rec.ctx.req.carrier, KctxKey(KCTX)).Nil?)
                && (Value(rec.ctx.req.carrier, KctxKey(KCTX)).Nil?
                    ==> r.ret == Returned(None) && r.app.value.captures == a.captures && r.app.value.log == a.log + [ContextMissing])
                && (CaptureEmitted(rec.ctx)
                    ==> && r.ret == Returned(None)
                        && r.app.value.log == a.log
                        && |r.app.value.captures| == |a.captures| + 1
                        && r.app.value.captures[..|a.captures|] == a.captures
                        && var tc := r.app.value.captures[|a.captures|];
                           && tc.captured == now
                           && tc.appId == a.name
                           && tc.httpReq.body == BufferedBody(ctx.req.body)
                           && tc.httpResp == rec.resp
                           && client.body + tc.httpResp.body == r.client.body
                           && tc.deps == Value(rec.ctx.req.carrier, KctxKey(KCTX)).kctx.deps
                           && tc == NewTestCase(a, rec.ctx, BufferedBody(ctx.req.body), rec.resp, tc.deps, now, orders))
                && (!CaptureEmitted(rec.ctx) ==> r.app.value.captures == a.captures)
  {
    if app.None? then PassThrough(app, next, ctx, client)
    else
      var a := app.value;
      var c1 := CaptureContext(ctx);
      var id := ctx.req.testId;
      if id != "" then ReplayRun(a, id, DepsOf(a, id), next, onError, c1, client)
      else if ctx.req.body.Unreadable? then Step(app, c1, client, Returned(Some(ctx.req.body.err)))
      else
        var rec := CaptureResp(RestoredContext(ctx), client, next, onError);
        var r := Finish(a, rec, BufferedBody(ctx.req.body), now, orders);
        assert r.app.value.captures[..|a.captures|] == a.captures;
        r
  }

  /** The middleware `EchoV4` installs. */
  datatype Middleware = ContextBridge | TestMiddleware | CaptureMiddleware

  /** What `EchoV4` sets up: the middleware chain, outermost first, and whether it starts `app.Test()`. */
  datatype Setup = Setup(chain: seq<Middleware>, startsReplayLoop: bool)

  /**
    `EchoV4`: mode "test" installs the bridge and `testMW` and starts the
    replay loop; mode "capture" installs the bridge and `captureMW`; "off"
    and every other mode install nothing.
   */
  function EchoV4(mode: string): (s: Setup)
    ensures s.chain == [ContextBridge, TestMiddleware] <==> mode == "test"
    ensures s.chain == [ContextBridge, CaptureMiddleware] <==> mode == "capture"
    ensures s.chain == [] <==> mode != "test" && mode != "capture"
    ensures s.startsReplayLoop <==> mode == "test"
  {
    if mode == "test" then Setup([ContextBridge, TestMiddleware], true)
    else if mode == "capture" then Setup([ContextBridge, CaptureMiddleware], false)
    else Setup([], false)
  }

  /**
    A request through an installed chain. Echo runs middleware in the order
    it was added, each wrapping the rest; the SDK middleware is always the
    innermost one `EchoV4` adds, so it calls the route handler `next`.
   */
  function Serve(chain: seq<Middleware>, app: Option<App>, next: Handler, onError: ErrorHandler, ctx: Ctx, client: Client, now: int, orders: Orders): (r: Step)
    ensures |chain| == 0 ==> r == PassThrough(app, next, ctx, client)
    ensures chain == [ContextBridge, TestMiddleware] ==> r == TestMW(app, next, onError, Wrap(ctx), client)
    ensures chain == [ContextBridge, CaptureMiddleware] ==> r == CaptureMW(app, next, onError, Wrap(ctx), client, now, orders)
    decreases |chain|
  {
    if |chain| == 0 then PassThrough(app, next, ctx, client)
    else match chain[0]
      case ContextBridge => Serve(chain[1..], app, next, onError, Wrap(ctx), client, now, orders)
      case TestMiddleware => TestMW(app, next, onError, ctx, client)
      case CaptureMiddleware => CaptureMW(app, next, onError, ctx, client, now, orders)
  }

  /** With "off" or an unknown mode the handler runs on the request as given and the client gets exactly its output. */
  lemma ServeOff(mode: string, app: Option<App>, next: Handler, onError: ErrorHandler, ctx: Ctx, client: Client, now: int, orders: Orders)
    requires mode != "test" && mode != "capture"
    ensures var r := Serve(EchoV4(mode).chain, app, next, onError, ctx, client, now, orders);
            && r.app == app
            && r.ctx == next(ctx).ctx
            && r.client == Client(client.codes + Codes(next(ctx).events), client.body + Payload(next(ctx).events))
            && r.ret == Returned(next(ctx).err)
  {
    SendAppends(client, next(ctx).events);
  }

  /**
    Test mode with a known id: the handler runs with the replayed test case's
    context visible through the carrier; the response it produced is stored
    under `app.Resp[id]`, exactly as the client received it, and nothing is
    captured.
   */
  lemma ServeTestKnown(a: App, next: Handler, onError: ErrorHandler, ctx: Ctx, client: Client, now: int, orders: Orders)
    requires ctx.req.testId != "" && ctx.req.testId in a.tests
    ensures var id := ctx.req.testId;
            var hc := ReplayContext(Wrap(ctx), id, a.tests[id].deps);
            var r := Serve(EchoV4("test").chain, Some(a), next, onError, ctx, client, now, orders);
            && Value(hc.req.carrier, KctxKey(KCTX)) == TestValue(id, a.tests[id].deps)
            && r.app == Some(a.(resp := a.resp[id := CaptureResp(hc, client, next, onError).resp]))
            && r.client.body == client.body + r.app.value.resp[id].body
            && r.app.value.captures == a.captures
            && r.ret == Returned(None)
  {
    var id := ctx.req.testId;
    ReplayContextVisible(Wrap(ctx), id, a.tests[id].deps);
    assert EchoV4("test").chain == [ContextBridge, TestMiddleware];
    assert EchoV4("test").chain[1..] == [TestMiddleware];
  }

  /** Test mode without a known id: the handler runs on the bridged request and nothing is recorded. */
  lemma ServeTestUnknown(app: App, next: Handler, onError: ErrorHandler, ctx: Ctx, client: Client, now: int, orders: Orders)
    requires ctx.req.testId == "" || ctx.req.testId !in app.tests
    ensures var r := Serve(EchoV4("test").chain, Some(app), next, onError, ctx, client, now, orders);
            && r.app == Some(app)
            && r.client == Send(client, next(Wrap(ctx)).events)
            && r.ret == Returned(next(Wrap(ctx)).err)
  {
    assert EchoV4("test").chain[1..] == [TestMiddleware];
  }

  /** A handler that leaves a keploy context wherever it finds one under `KCTX`. */
  ghost predicate KeepsKeployContext(h: Handler) {
    forall c: Ctx :: Value(c.req.carrier, KctxKey(KCTX)).Keploy? ==> Value(h(c).ctx.req.carrier, KctxKey(KCTX)).Keploy?
  }

  /** An error handler that leaves a keploy context wherever it finds one under `KCTX`. */
  ghost predicate ErrorKeepsKeployContext(h: ErrorHandler) {
    forall c: Ctx, e: string :: Value(c.req.carrier, KctxKey(KCTX)).Keploy? ==> Value(h(c, e).ctx.req.carrier, KctxKey(KCTX)).Keploy?
  }

  /** A handler that leaves the matched route alone. */
  ghost predicate KeepsRoute(h: Handler) {
    forall c :: h(c).ctx.paramNames == c.paramNames && h(c).ctx.paramValues == c.paramValues
  }

  /** An error handler that leaves the matched route alone. */
  ghost predicate ErrorKeepsRoute(h: ErrorHandler) {
    forall c, e :: h(c, e).ctx.paramNames == c.paramNames && h(c, e).ctx.paramValues == c.paramValues
  }

  /**
    Capture mode without a replay id, with a readable body and handlers that
    keep the keploy context and the route: the bridge makes the context set
    by `captureMW` survive to the end, so exactly one test case is captured;
    it carries the buffered request body, the response exactly as the client
    received it, and the query parameters merged independently of the order
    Go ranged over them.
   */
  lemma ServeCaptureRecords(a: App, next: Handler, onError: ErrorHandler, ctx: Ctx, client: Client, now: int, orders: Orders)
    requires ctx.req.testId == "" && !ctx.req.body.Unreadable?
    requires |ctx.paramNames| <= |ctx.paramValues|
    requires KeepsKeployContext(next) && ErrorKeepsKeployContext(onError)
    requires KeepsRoute(next) && ErrorKeepsRoute(onError)
    ensures var r := Serve(EchoV4("capture").chain, Some(a), next, onError, ctx, client, now, orders);
            && r.ret == Returned(None)
            && r.app.Some?
            && r.app.value == a.(captures := r.app.value.captures)
            && |r.app.value.captures| == |a.captures| + 1
            && r.app.value.captures[..|a.captures|] == a.captures
            && var tc := r.app.value.captures[|a.captures|];
               && tc.httpReq.body == BufferedBody(ctx.req.body)
               && r.client.body == client.body + tc.httpResp.body
               && (IsOrderOf(orders.queryKeys, r.ctx.req.query.Keys)
                   ==> tc.httpReq.urlParams == MergeQuery(PathParams(ctx.paramNames, ctx.paramValues), r.ctx.req.query))
               && var params := PathParams(ctx.paramNames, ctx.paramValues);
                  && (params == map[] ==> tc.uri == r.ctx.req.path)
                  && (IsOrderOf(orders.pathKeys, params.Keys) && params != map[]
                      ==> exists k :: k in params && tc.uri == Replace(r.ctx.req.path, params[k], ":" + k))
  {
    var w := Wrap(ctx);
    assert EchoV4("capture").chain[1..] == [CaptureMiddleware];
    var rc := RestoredContext(w);
    assert Value(rc.req.carrier, KctxKey(KCTX)) == CaptureValue by {
      SetThenGet(w, KCTX, CaptureValue);
    }
    var o := next(rc);
    assert Value(o.ctx.req.carrier, KctxKey(KCTX)).Keploy?;
    var final := HandlerCtx(rc, next, onError);
    assert Value(final.req.carrier, KctxKey(KCTX)).Keploy?;
    assert final.paramNames == ctx.paramNames && final.paramValues == ctx.paramValues;
    assert CaptureEmitted(final);
    var r := Serve(EchoV4("capture").chain, Some(a), next, onError, ctx, client, now, orders);
    assert r == CaptureMW(Some(a), next, onError, w, client, now, orders);
  }
}

=== FILE: params.dfy ===
/**
  The path/query normaliser of the Echo integration: `pathParamsEcho`,
  `urlParamsEcho` and `urlPathEcho`. Go ranges over a map in an unspecified
  order, so every loop over a map takes that order as a sequence of keys; the
  lemmas hold for every order the runtime may pick.
 */
module Params {
  import opened GoStrings

  /** Parameter name to value, as the SDK's `URLParams` field holds them. */
  type ParamMap = map<string, string>

  /** `url.Values`: a query name to the values given for it, in order. */
  type Query = map<string, seq<string>>

  /** The separator `urlParamsEcho` puts between accumulated values. */
  const Separator: string := ", "

  predicate Distinct(xs: seq<string>) {
    forall i, j :: 0 <= i < j < |xs| ==> xs[i] != xs[j]
  }

  /** `order` lists each key of `keys` exactly once: one way Go may range over a map. */
  predicate IsOrderOf(order: seq<string>, keys: set<string>) {
    && Distinct(order)
    && (forall k :: k in order ==> k in keys)
    && (forall k :: k in keys ==> k in order)
  }

  /** No later name repeats `names[i]`. */
  predicate IsLastOccurrence(names: seq<string>, i: int) {
    0 <= i < |names| && forall j :: i < j < |names| ==> names[j] != names[i]
  }

  /**
    `pathParamsEcho`: each route parameter name bound to the value at the same
    index; a name that appears again later is overwritten by the later value.
    Go indexes `values` by every index of `names`, so there must be at least
    as many values as names.
   */
  function PathParams(names: seq<string>, values: seq<string>): (r: ParamMap)
    requires |names| <= |values|
    ensures forall k :: k in r <==> k in names
    ensures forall i :: IsLastOccurrence(names, i) ==> r[names[i]] == values[i]
    decreases |names|
  {
    if |names| == 0 then map[]
    else
      var n := |names| - 1;
      var prev := PathParams(names[..n], values);
      PathParamsStep(names, values, prev);
      prev[names[n] := values[n]]
  }

  /** The induction step of `PathParams`: binding the last name on top of the prefix's map. */
  lemma PathParamsStep(names: seq<string>, values: seq<string>, prev: ParamMap)
    requires 0 < |names| <= |values|
    requires forall k :: k in prev <==> k in names[..|names| - 1]
    requires forall i :: IsLastOccurrence(names[..|names| - 1], i) ==> prev[names[..|names| - 1][i]] == values[i]
    ensures var r := prev[names[|names| - 1] := values[|names| - 1]];
            && (forall k :: k in r <==> k in names)
            && (forall i :: IsLastOccurrence(names, i) ==> r[names[i]] == values[i])
  {
    var n := |names| - 1;
    var init := names[..n];
    var r := prev[names[n] := values[n]];
    assert names == init + [names[n]];
    forall k ensures k in r <==> k in names {
      assert k in names <==> k in init || k == names[n];
    }
    forall i | IsLastOccurrence(names, i) ensures r[names[i]] == values[i] {
      if i < n {
        assert IsLastOccurrence(init, i);
        assert init[i] == names[i];
      }
    }
  }

  /** With pairwise distinct names every name is bound to its own value. */
  lemma PathParamsDistinct(names: seq<string>, values: seq<string>)
    requires |names| <= |values|
    requires Distinct(names)
    ensures forall i :: 0 <= i < |names| ==> PathParams(names, values)[names[i]] == values[i]
  {
    assert forall i :: 0 <= i < |names| ==> IsLastOccurrence(names, i);
  }

  /**
    The inner loop of `urlParamsEcho`: append each value to the accumulated
    string, with the separator only when the accumulated string is non-empty.
   */
  function AppendValues(acc: string, vals: seq<string>): (r: string)
    ensures acc != "" ==> |acc| <= |r| && r[..|acc|] == acc
    ensures |vals| > 0 ==> |vals[|vals| - 1]| <= |r| && r[|r| - |vals[|vals| - 1]|..] == vals[|vals| - 1]
    ensures acc == "" && (forall i :: 0 <= i < |vals| ==> vals[i] == "") ==> r == ""
    decreases |vals|
  {
    if |vals| == 0 then acc
    else AppendValues(if acc != "" then acc + Separator + vals[0] else vals[0], vals[1..])
  }

  /** Drop the empty strings at the front of `parts`. */
  function DropLeadingEmpty(parts: seq<string>): (r: seq<string>)
    ensures |r| <= |parts| && r == parts[|parts| - |r|..]
    ensures |r| > 0 ==> r[0] != ""
    ensures forall i :: 0 <= i < |parts| - |r| ==> parts[i] == ""
    decreases |parts|
  {
    if |parts| > 0 && parts[0] == "" then DropLeadingEmpty(parts[1..]) else parts
  }

  lemma JoinCons(a: string, b: string, rest: seq<string>, sep: string)
    ensures Join([a + sep + b] + rest, sep) == a + sep + Join([b] + rest, sep)
  {
    if |rest| > 0 {
      assert ([a + sep + b] + rest)[1..] == rest;
      assert ([b] + rest)[1..] == rest;
    }
  }

  /**
    Reference for the inner loop: the accumulated value and the query values,
    with leading empty strings dropped, joined by ", ".
   */
  lemma {:induction false} AppendValuesIsJoin(acc: string, vals: seq<string>)
    ensures AppendValues(acc, vals) == Join(DropLeadingEmpty([acc] + vals), Separator)
    decreases |vals|
  {
    if |vals| == 0 {
      assert [acc] + vals == [acc];
    } else {
      var v := vals[0];
      var rest := vals[1..];
      assert [acc] + vals == [acc] + ([v] + rest);
      if acc == "" {
        AppendValuesIsJoin(v, rest);
        assert ([acc] + vals)[1..] == [v] + rest;
      } else {
        var acc' := acc + Separator + v;
        AppendValuesIsJoin(acc', rest);
        assert DropLeadingEmpty([acc'] + rest) == [acc'] + rest;
        assert DropLeadingEmpty([acc] + vals) == [acc] + vals;
        JoinCons(acc, v, rest, Separator);
        assert ([acc] + vals)[1..] == [v] + rest;
      }
    }
  }

  /** The value a name starts from: its path value, or "" when it has none. */
  function BaseValue(m: ParamMap, k: string): string {
    if k in m then m[k] else ""
  }

  /** `acc` with the query values of every name in `ks` merged in. */
  function MergeKeys(acc: ParamMap, query: Query, ks: set<string>): ParamMap
    requires ks <= query.Keys
  {
    map k | k in acc.Keys + ks :: if k in ks then AppendValues(BaseValue(acc, k), query[k]) else acc[k]
  }

  /** Order-free reference for `urlParamsEcho`'s loop over the query names. */
  function MergeQuery(path: ParamMap, query: Query): ParamMap {
    MergeKeys(path, query, query.Keys)
  }

  /**
    The outer loop of `urlParamsEcho`, ranging over the query names in
    `order`. A name missing from `query` cannot come up in Go's range; it is
    skipped so that the function is total.
   */
  function MergeInOrder(acc: ParamMap, query: Query, order: seq<string>): (r: ParamMap)
    ensures forall k :: k in r <==> k in acc || (k in order && k in query)
    ensures forall k :: k in acc && k !in order ==> r[k] == acc[k]
    decreases |order|
  {
    if |order| == 0 then acc
    else
      var k := order[0];
      var acc' := if k in query then acc[k := AppendValues(BaseValue(acc, k), query[k])] else acc;
      MergeInOrder(acc', query, order[1..])
  }

  function SetOf(xs: seq<string>): set<string> {
    set x | x in xs
  }

  lemma {:induction false} MergeInOrderIsMergeKeys(acc: ParamMap, query: Query, order: seq<string>)
    requires Distinct(order)
    requires forall k :: k in order ==> k in query
    ensures MergeInOrder(acc, query, order) == MergeKeys(acc, query, SetOf(order))
    decreases |order|
  {
    if |order| == 0 {
      assert SetOf(order) == {};
      assert MergeKeys(acc, query, {}) == acc;
    } else {
      var k := order[0];
      var rest := order[1..];
      assert Distinct(rest);
      MergeInOrderIsMergeKeys(acc[k := AppendValues(BaseValue(acc, k), query[k])], query, rest);
      assert SetOf(order) == {k} + SetOf(rest);
      MergeKeysStep(acc, query, k, SetOf(rest));
    }
  }

  /** Merging one more name first, then the rest, is merging them all at once. */
  lemma MergeKeysStep(acc: ParamMap, query: Query, k: string, ks: set<string>)
    requires k in query && ks <= query.Keys && k !in ks
    ensures MergeKeys(acc[k := AppendValues(BaseValue(acc, k), query[k])], query, ks)
            == MergeKeys(acc, query, {k} + ks)
  {
    var acc' := acc[k := AppendValues(BaseValue(acc, k), query[k])];
    var lhs := MergeKeys(acc', query, ks);
    var rhs := MergeKeys(acc, query, {k} + ks);
    assert lhs.Keys == rhs.Keys;
    forall x | x in lhs.Keys ensures lhs[x] == rhs[x] {
      if x in ks {
        assert BaseValue(acc', x) == BaseValue(acc, x);
      }
    }
  }

  /** `urlParamsEcho`: the path parameters with the query values merged in. */
  function UrlParams(names: seq<string>, values: seq<string>, query: Query, order: seq<string>): (r: ParamMap)
    requires |names| <= |values|
    ensures forall k :: k in r <==> k in names || (k in order && k in query)
    ensures forall i :: IsLastOccurrence(names, i) && names[i] !in order ==> r[names[i]] == values[i]
  {
    MergeInOrder(PathParams(names, values), query, order)
  }

  /**
    Whatever order Go ranges over the query names in, `urlParamsEcho` yields
    the order-free merge: names without query values keep their path value,
    and a name with query values gets its base value followed by each query
    value in turn.
   */
  lemma UrlParamsIsMerge(names: seq<string>, values: seq<string>, query: Query, order: seq<string>)
    requires |names| <= |values|
    requires IsOrderOf(order, query.Keys)
    ensures var path := PathParams(names, values);
            var r := UrlParams(names, values, query, order);
            && r == MergeQuery(path, query)
            && (forall k :: k in r <==> k in path || k in query)
            && (forall k :: k in path && k !in query ==> r[k] == path[k])
            && (forall k :: k in query ==> r[k] == AppendValues(BaseValue(path, k), query[k]))
  {
    assert SetOf(order) == query.Keys;
    MergeInOrderIsMergeKeys(PathParams(names, values), query, order);
  }

  /** Each name's merged value does not depend on the iteration order. */
  lemma UrlParamsOrderIndependent(names: seq<string>, values: seq<string>, query: Query, o1: seq<string>, o2: seq<string>)
    requires |names| <= |values|
    requires IsOrderOf(o1, query.Keys) && IsOrderOf(o2, query.Keys)
    ensures UrlParams(names, values, query, o1) == UrlParams(names, values, query, o2)
  {
    UrlParamsIsMerge(names, values, query, o1);
    UrlParamsIsMerge(names, values, query, o2);
  }

  /** Path `{id: "7"}` and query `{filter: ["a", "b"]}` give `{id: "7", filter: "a, b"}`. */
  lemma UrlParamsExample()
    ensures UrlParams(["id"], ["7"], map["filter" := ["a", "b"]], ["filter"])
            == map["id" := "7", "filter" := "a, b"]
  {
    var query := map["filter" := ["a", "b"]];
    var path := PathParams(["id"], ["7"]);
    assert path == map["id" := "7"] by {
      assert IsLastOccurrence(["id"], 0);
    }
    assert IsOrderOf(["filter"], query.Keys);
    UrlParamsIsMerge(["id"], ["7"], query, ["filter"]);
    assert AppendValues("", ["a", "b"]) == "a, b" by {
      assert AppendValues("", ["a", "b"]) == AppendValues("a", ["b"]);
      assert AppendValues("a", ["b"]) == AppendValues("a, b", []);
    }
    var r := UrlParams(["id"], ["7"], query, ["filter"]);
    assert r.Keys == {"id", "filter"};
  }

  /**
    The loop of `urlPathEcho`: each iteration rewrites the ORIGINAL `url`, not
    the running result, so only the last key's replacement survives. Keys
    missing from `params` cannot come up in Go's range and are skipped.
   */
  function UrlPathFrom(url: string, params: ParamMap, order: seq<string>, res: string): (r: string)
    ensures r == res || exists k :: k in order && k in params && r == Replace(url, params[k], ":" + k)
    ensures (forall k :: k in order ==> k !in params) ==> r == res
    decreases |order|
  {
    if |order| == 0 then res
    else
      var k := order[0];
      var res' := if k in params then Replace(url, params[k], ":" + k) else res;
      UrlPathFrom(url, params, order[1..], res')
  }

  /** `urlPathEcho(url, params)` when Go ranges over `params` in `order`. */
  function UrlPath(url: string, params: ParamMap, order: seq<string>): (r: string)
    ensures r == url || exists k :: k in order && k in params && r == Replace(url, params[k], ":" + k)
    ensures (forall k :: k in order ==> k !in params) ==> r == url
  {
    UrlPathFrom(url, params, order, url)
  }

  lemma {:induction false} UrlPathFromLast(url: string, params: ParamMap, order: seq<string>, res: string)
    requires forall k :: k in order ==> k in params
    ensures UrlPathFrom(url, params, order, res)
            == if |order| == 0 then res
               else Replace(url, params[order[|order| - 1]], ":" + order[|order| - 1])
    decreases |order|
  {
    if |order| > 0 {
      var k, rest := order[0], order[1..];
      assert forall x :: x in rest ==> x in order;
      UrlPathFromLast(url, params, rest, Replace(url, params[k], ":" + k));
      if |rest| > 0 {
        assert rest[|rest| - 1] == order[|order| - 1];
      }
    }
  }

  /**
    `urlPathEcho` returns `url` unchanged for an empty map, and otherwise
    replaces the value of the last-ranged key only: replacements are never
    composed.
   */
  lemma UrlPathLastKey(url: string, params: ParamMap, order: seq<string>)
    requires IsOrderOf(order, params.Keys)
    ensures params == map[] ==> UrlPath(url, params, order) == url
    ensures params != map[] ==>
              && |order| > 0
              && UrlPath(url, params, order) == Replace(url, params[order[|order| - 1]], ":" + order[|order| - 1])
  {
    UrlPathFromLast(url, params, order, url);
    if params != map[] {
      var k :| k in params;
      assert k in order;
    } else if |order| > 0 {
      assert false;
    }
  }

  /**
    The possible results of `urlPathEcho`: `url` itself for an empty map, and
    otherwise one key's replacement applied to the original `url`.
   */
  lemma UrlPathOutcomes(url: string, params: ParamMap, order: seq<string>)
    requires IsOrderOf(order, params.Keys)
    ensures params == map[] ==> UrlPath(url, params, order) == url
    ensures params != map[] ==> exists k :: k in params && UrlPath(url, params, order) == Replace(url, params[k], ":" + k)
  {
    UrlPathLastKey(url, params, order);
    if params != map[] {
      var k := order[|order| - 1];
      assert k in params;
    }
  }

  /** Some listing of every element of `s`. */
  ghost function SomeOrder(s: set<string>): (r: seq<string>)
    ensures IsOrderOf(r, s)
    decreases |s|
  {
    if s == {} then []
    else
      var x :| x in s;
      var rest := SomeOrder(s - {x});
      assert forall i :: 0 <= i < |rest| ==> rest[i] != x;
      [x] + rest
  }

  /** Every key can be the one whose replacement survives, so the result can depend on the iteration order. */
  lemma UrlPathAnyKeyMayWin(url: string, params: ParamMap, k: string)
    requires k in params
    ensures exists order :: IsOrderOf(order, params.Keys) && UrlPath(url, params, order) == Replace(url, params[k], ":" + k)
  {
    var others := SomeOrder(params.Keys - {k});
    var order := others + [k];
    assert forall i :: 0 <= i < |others| ==> others[i] != k;
    assert forall x :: x in order <==> x in others || x == k;
    assert IsOrderOf(order, params.Keys);
    UrlPathLastKey(url, params, order);
  }

  /** One key valued `c`, which occurs once in the path. */
  lemma UrlPathOneKey(p0: string, p1: string, a: string, c: char)
    requires c !in p0 && c !in p1
    ensures UrlPath(p0 + [c] + p1, map[a := [c]], [a]) == p0 + (":" + a) + p1
  {
    var params := map[a := [c]];
    assert IsOrderOf([a], params.Keys);
    assert a in params;
    UrlPathLastKey(p0 + [c] + p1, params, [a]);
    ReplaceTwoParts(p0, p1, c, ":" + a);
  }

  /** `urlPathEcho("/users/7", {id: "7"})` is `"/users/:id"`. */
  lemma UrlPathExample()
    ensures UrlPath("/users/7", map["id" := "7"], ["id"]) == "/users/:id"
  {
    var p0 := "/users/";
    assert p0 + ['7'] + "" == "/users/7";
    assert p0 + (":" + "id") + "" == "/users/:id";
    UrlPathOneKey(p0, "", "id", '7');
  }

  lemma JoinTwo(parts: seq<string>, sep: string)
    requires |parts| == 2
    ensures Join(parts, sep) == parts[0] + sep + parts[1]
  {
    assert parts[1..] == [parts[1]];
  }

  lemma JoinThree(parts: seq<string>, sep: string)
    requires |parts| == 3
    ensures Join(parts, sep) == parts[0] + sep + parts[1] + sep + parts[2]
  {
    JoinTwo(parts[1..], sep);
  }

  /** A one-character pattern occurs only where that character does. */
  lemma AbsentChar(s: string, c: char)
    requires c !in s
    ensures !Contains(s, [c]) && !Contains(s + [c][..0], [c])
  {
    assert s + [c][..0] == s;
    forall i | 0 <= i < |s| ensures MatchAt(s, [c], i) ==> s[i] == c {
      assert s[i..i + 1][0] == s[i];
    }
  }

  /** Ranging over two distinct keys in order `[a, b]` keeps only `b`'s replacement. */
  lemma UrlPathTwoKeys(url: string, a: string, va: string, b: string, vb: string)
    requires a != b
    ensures UrlPath(url, map[a := va, b := vb], [a, b]) == Replace(url, vb, ":" + b)
  {
    var params := map[a := va, b := vb];
    assert IsOrderOf([a, b], params.Keys);
    assert a in params;
    UrlPathLastKey(url, params, [a, b]);
  }

  /** Two keys, the last-ranged one valued `c`, which occurs once in the path. */
  lemma UrlPathLastOfTwoOnce(p0: string, p1: string, a: string, va: string, b: string, c: char)
    requires a != b && c !in p0 && c !in p1
    ensures UrlPath(p0 + [c] + p1, map[a := va, b := [c]], [a, b]) == p0 + (":" + b) + p1
  {
    UrlPathTwoKeys(p0 + [c] + p1, a, va, b, [c]);
    ReplaceTwoParts(p0, p1, c, ":" + b);
  }

  /** Two keys, the last-ranged one valued `c`, which occurs twice in the path. */
  lemma UrlPathLastOfTwoTwice(p0: string, p1: string, p2: string, a: string, va: string, b: string, c: char)
    requires a != b && c !in p0 && c !in p1 && c !in p2
    ensures UrlPath(p0 + [c] + p1 + [c] + p2, map[a := va, b := [c]], [a, b]) == p0 + (":" + b) + p1 + (":" + b) + p2
  {
    UrlPathTwoKeys(p0 + [c] + p1 + [c] + p2, a, va, b, [c]);
    ReplaceThreeParts(p0, p1, p2, c, ":" + b);
  }

  /**
    Two parameters with different values: after ranging over both, the value
    of the first-ranged one is still literal in the result.
   */
  lemma UrlPathNotComposed()
    ensures UrlPath("/users/3/orders/9", map["id" := "3", "oid" := "9"], ["id", "oid"]) == "/users/3/orders/:oid"
  {
    var p0 := "/users/3/orders/";
    assert p0 + ['9'] + "" == "/users/3/orders/9";
    assert p0 + (":" + "oid") + "" == "/users/3/orders/:oid";
    UrlPathLastOfTwoOnce(p0, "", "id", "3", "oid", '9');
  }

  /** Replacing a character that occurs exactly once, between `p0` and `p1`. */
  lemma ReplaceTwoParts(p0: string, p1: string, c: char, rep: string)
    requires c !in p0 && c !in p1
    ensures Replace(p0 + [c] + p1, [c], rep) == p0 + rep + p1
  {
    var parts := [p0, p1];
    AbsentChar(parts[0], c);
    AbsentChar(parts[1], c);
    ReplaceJoin(parts, [c], rep);
    JoinTwo(parts, [c]);
    JoinTwo(parts, rep);
  }

  /** Replacing a character that occurs exactly twice, splitting `p0`, `p1`, `p2`. */
  lemma ReplaceThreeParts(p0: string, p1: string, p2: string, c: char, rep: string)
    requires c !in p0 && c !in p1 && c !in p2
    ensures Replace(p0 + [c] + p1 + [c] + p2, [c], rep) == p0 + rep + p1 + rep + p2
  {
    var parts := [p0, p1, p2];
    AbsentChar(parts[0], c);
    AbsentChar(parts[1], c);
    AbsentChar(parts[2], c);
    ReplaceJoin(parts, [c], rep);
    JoinThree(parts, [c]);
    JoinThree(parts, rep);
  }

  /** Ranging `orderId` then `id` over two parameters both valued "7". */
  lemma UrlPathIdLast()
    ensures UrlPath("/users/7/orders/7", map["id" := "7", "orderId" := "7"], ["orderId", "id"]) == "/users/:id/orders/:id"
  {
    var p0, p1 := "/users/", "/orders/";
    assert p0 + ['7'] + p1 + ['7'] + "" == "/users/7/orders/7";
    assert p0 + (":" + "id") + p1 + (":" + "id") + "" == "/users/:id/orders/:id";
    assert map["orderId" := "7", "id" := "7"] == map["id" := "7", "orderId" := "7"];
    UrlPathLastOfTwoTwice(p0, p1, "", "orderId", "7", "id", '7');
  }

  /** Ranging `id` then `orderId` over two parameters both valued "7". */
  lemma UrlPathOrderIdLast()
    ensures UrlPath("/users/7/orders/7", map["id" := "7", "orderId" := "7"], ["id", "orderId"]) == "/users/:orderId/orders/:orderId"
  {
    var p0, p1 := "/users/", "/orders/";
    assert p0 + ['7'] + p1 + ['7'] + "" == "/users/7/orders/7";
    assert p0 + (":" + "orderId") + p1 + (":" + "orderId") + "" == "/users/:orderId/orders/:orderId";
    UrlPathLastOfTwoTwice(p0, p1, "", "id", "7", "orderId", '7');
  }

  /**
    Two parameters with the same value: the two ranging orders give two
    different templated paths.
   */
  lemma UrlPathOrderMatters()
    ensures var params := map["id" := "7", "orderId" := "7"];
            UrlPath("/users/7/orders/7", params, ["orderId", "id"]) != UrlPath("/users/7/orders/7", params, ["id", "orderId"])
  {
    UrlPathIdLast();
    UrlPathOrderIdLast();
    assert |"/users/:id/orders/:id"| != |"/users/:orderId/orders/:orderId"|;
  }
}

=== FILE: recorder.dfy ===
/**
  The response recorder: `bodyDumpResponseWriter`, which `captureResp`
  installs in place of the response writer. Its `io.Writer` half is an
  `io.MultiWriter` over the real writer and a capture buffer; its
  `http.ResponseWriter` half is the real writer.
 */
module Recorder {
  import opened EchoContext

  /** A call a handler makes on the response writer. */
  datatype Event = Write(data: Bytes) | WriteHeader(code: int)

  /** What the real `http.ResponseWriter` has received: status codes and body bytes, in order. */
  datatype Client = Client(codes: seq<int>, body: Bytes)

  /** `bodyDumpResponseWriter`: the real writer and the capture buffer. */
  datatype BodyDump = BodyDump(client: Client, buffer: Bytes)

  /** The result of a `Write`: the writer afterwards and the byte count reported. */
  datatype Written = Written(writer: BodyDump, n: int)

  /**
    `Write(b)`: the multi-writer hands `b` to the real writer and then to the
    buffer, and reports every byte written.
   */
  function BodyWrite(w: BodyDump, b: Bytes): (r: Written)
    ensures r.n == |b|
    ensures r.writer.client.codes == w.client.codes
    ensures |r.writer.client.body| == |w.client.body| + |b| && r.writer.client.body[..|w.client.body|] == w.client.body
    ensures |r.writer.buffer| == |w.buffer| + |b| && r.writer.buffer[..|w.buffer|] == w.buffer
    ensures r.writer.client.body[|w.client.body|..] == b == r.writer.buffer[|w.buffer|..]
  {
    var toClient := Client(w.client.codes, w.client.body + b);
    Written(BodyDump(toClient, w.buffer + b), |b|)
  }

  /** `WriteHeader(code)`: forwarded to the real writer; the buffer is left alone. */
  function StatusWrite(w: BodyDump, code: int): (r: BodyDump)
    ensures r.buffer == w.buffer && r.client.body == w.client.body
    ensures r.client.codes == w.client.codes + [code]
  {
    w.(client := w.client.(codes := w.client.codes + [code]))
  }

  /** The body bytes of `events`: every `Write` payload, in order. */
  function Payload(events: seq<Event>): Bytes
    decreases |events|
  {
    if |events| == 0 then []
    else (if events[0].Write? then events[0].data else []) + Payload(events[1..])
  }

  /** The status codes of `events`, in order. */
  function Codes(events: seq<Event>): seq<int>
    decreases |events|
  {
    if |events| == 0 then []
    else (if events[0].WriteHeader? then [events[0].code] else []) + Codes(events[1..])
  }

  /** The real writer receiving `events` directly, with no recorder in between. */
  function Send(c: Client, events: seq<Event>): Client
    decreases |events|
  {
    if |events| == 0 then c
    else
      var c' := match events[0]
        case Write(b) => c.(body := c.body + b)
        case WriteHeader(code) => c.(codes := c.codes + [code]);
      Send(c', events[1..])
  }

  /** The recorder receiving `events`. */
  function Replay(w: BodyDump, events: seq<Event>): BodyDump
    decreases |events|
  {
    if |events| == 0 then w
    else
      var w' := match events[0]
        case Write(b) => BodyWrite(w, b).writer
        case WriteHeader(code) => StatusWrite(w, code);
      Replay(w', events[1..])
  }

  lemma Assoc<T>(x: seq<T>, y: seq<T>, z: seq<T>)
    ensures x + y + z == x + (y + z)
  {
  }

  /** The payload and the codes of two runs of calls are those of each run, concatenated. */
  lemma {:induction false} PayloadAppend(a: seq<Event>, b: seq<Event>)
    ensures Payload(a + b) == Payload(a) + Payload(b)
    ensures Codes(a + b) == Codes(a) + Codes(b)
    decreases |a|
  {
    if |a| > 0 {
      assert (a + b)[0] == a[0];
      assert (a + b)[1..] == a[1..] + b;
      PayloadAppend(a[1..], b);
      Assoc(if a[0].Write? then a[0].data else [], Payload(a[1..]), Payload(b));
      Assoc(if a[0].WriteHeader? then [a[0].code] else [], Codes(a[1..]), Codes(b));
    } else {
      assert a + b == b;
    }
  }

  /** Sending events appends their codes and their payload to what the client had. */
  lemma {:induction false} SendAppends(c: Client, events: seq<Event>)
    ensures Send(c, events) == Client(c.codes + Codes(events), c.body + Payload(events))
    decreases |events|
  {
    if |events| > 0 {
      match events[0]
      case Write(b) =>
        SendAppends(c.(body := c.body + b), events[1..]);
        Assoc(c.body, b, Payload(events[1..]));
      case WriteHeader(code) =>
        SendAppends(c.(codes := c.codes + [code]), events[1..]);
        Assoc(c.codes, [code], Codes(events[1..]));
    }
  }

  /**
    The recorder is transparent and faithful: the client receives exactly
    what it would have received without the recorder, and the buffer gains
    every written byte in the order written.
   */
  lemma {:induction false} ReplayMirrors(w: BodyDump, events: seq<Event>)
    ensures Replay(w, events).client == Send(w.client, events)
    ensures Replay(w, events).buffer == w.buffer + Payload(events)
    decreases |events|
  {
    if |events| > 0 {
      match events[0]
      case Write(b) =>
        ReplayMirrors(BodyWrite(w, b).writer, events[1..]);
        Assoc(w.buffer, b, Payload(events[1..]));
      case WriteHeader(code) =>
        ReplayMirrors(StatusWrite(w, code), events[1..]);
    }
  }

  /** Starting from an empty buffer, the buffer ends up holding exactly the bytes the client got. */
  lemma RecordedIsSent(c: Client, events: seq<Event>)
    ensures var w := Replay(BodyDump(c, []), events);
            && w.client.body == c.body + w.buffer
            && w.client.codes == c.codes + Codes(events)
            && w.buffer == Payload(events)
  {
    ReplayMirrors(BodyDump(c, []), events);
    SendAppends(c, events);
  }
}

=== FILE: wrappers.dfy ===
/** An optional value, shared by the other modules. */
module Wrappers {

  /** An optional value: Go's nil results and comma-ok lookups. */
  datatype Option<+T> = None | Some(value: T)
}
